=== FILE: README.md ===
# nox page script: colour theme, starfield size and mock login

A Dafny model of the logic in `nox/script.js`, the script behind the Nox
landing page. The parts modelled are:

- **Colour codec.** `hexToRgb` reads `#rgb` / `#rrggbb` text into a
  `{ r, g, b }` record. `rgbToHex` prints it back. `mixHexWith` blends two
  colours channel by channel with `Math.round`.
- **Palette from the logo.** `extractPaletteFromImage` scans the RGBA
  bytes of the downsampled logo. It skips pixels whose alpha is below 16
  and averages the rest into the primary colour. It then mixes an accent
  35% towards violet `#b68cff` when the mean is redder than it is blue,
  and towards `#6f7cff` otherwise.
- **Theme.** `setThemeFromColors` sets `--primary` and `--accent`. It
  derives `--bg-elev` by mixing the primary 70% towards black. The logo
  `load` handlers apply a palette when there is one.
- **Starfield size.** `createStars` draws `min(800, floor(w * h * density))`
  stars, with 0.0018 stars per pixel on viewports at least 900px wide and
  0.0012 otherwise. `setupStarfield` does nothing when reduced motion is
  requested. The `resize` listener recreates the stars.
- **Mock login.** The submit handler accepts a trimmed email matching
  `/.+@.+\..+/` and a password of at least six UTF-16 code units. Only
  then does it store `{ email, at }`. Logout removes the session, and the
  status line greets a stored session.

The JavaScript semantics these rely on are modelled explicitly, each in
its own module:

- `JsText`: `trim`'s white-space set, line terminators, and `length`
  counting UTF-16 code units.
- `HexNumber`: `parseInt(s, 16)` with its white space, sign, `0x` prefix,
  longest digit run and `NaN`; `toString(16)`; `padStart`.
- `JsMath`: `Math.round` and `Math.floor` on exact rationals.
- `Color.Unpacked`: the `ToInt32` / shift / mask arithmetic.

Ratios and densities are exact rationals: 35/100, 70/100, 18/10000 and
12/10000. The clock, the viewport size and the media-query flags are
parameters.

Modules, one per file: `Wrappers` (wrappers.dfy), `JsText`
(js_text.dfy), `JsMath` (js_math.dfy), `HexNumber` (hex_number.dfy),
`Color` (color.dfy), `Palette` (palette.dfy), `Theme` (theme.dfy),
`Starfield` (starfield.dfy) and `Login` (login.dfy).

## Model

| member | source | states |
|---|---|---|
| JsText.Utf16Length | nox/script.js:133 | `length` counts UTF-16 code units: between the number of characters and twice that, and exactly the number of characters when all are in the Basic Multilingual Plane |
| JsText.Trim | nox/script.js:207 | `trim` returns the slice after the leading white space, everything after that slice is white space, and neither end of the result is white |
| JsText.TrimIdempotent | nox/script.js:207 | trimming an already trimmed email changes nothing |
| JsText.TrimSurrounded | nox/script.js:207 | white space around a text whose ends are not white is removed exactly, and the text is kept whole |
| HexNumber.NatToHex | nox/script.js:138 | `toString(16)` of a non-negative integer is lower-case digits with no leading zero that denote the number; it is one digit exactly when the number is below 16 |
| HexNumber.PadStart2 | nox/script.js:138 | `padStart(2, '0')` leaves text of two or more UTF-16 code units alone and puts `0`s in front of shorter text until it is two units long |
| HexNumber.PadKeepsAstral | nox/script.js:138 | a single character outside the Basic Multilingual Plane is already two units long and gets no padding |
| HexNumber.IntToHex | nox/script.js:138 | `toString(16)` of a non-negative integer is lower-case hexadecimal digits with no leading zero whose value is the integer; of a negative one, `-` followed by such digits whose value is its magnitude |
| HexNumber.ParseIntHex | nox/script.js:134 | `parseInt(v, 16)` of a plain run of hex digits is its value; text starting with neither a digit, a sign nor white space is `NaN` |
| HexNumber.ParseIntHexReads | nox/script.js:134 | `parseInt(v, 16)` skips white space, one sign and a `0x`/`0X`, reads the longest digit run, and ignores what follows; the result is the signed value of the run |
| HexNumber.HexValueAppend | nox/script.js:134 | the value of concatenated digit runs is the left value shifted by the right run's length plus the right value |
| Color.RemoveFirst | nox/script.js:132 | `replace('#', '')` removes exactly the first `#`: the text before it and the text after it are kept as they are, and text without a `#` is unchanged |
| Color.HexToRgb | nox/script.js:131-136 | every channel `hexToRgb` returns is a byte, whatever the input text, malformed or `NaN` included |
| Color.Expanded | nox/script.js:133 | text of exactly three UTF-16 code units becomes twice as long, unit `i` of the result being unit `i / 2` of the text; any other text is left as it is |
| Color.DoubleEach | nox/script.js:133 | `split('').map(x => x + x).join('')` doubles the length; `Color.DoubledAt` states that unit `i` of the result is unit `i / 2` of the input |
| Color.DoubledAt | nox/script.js:133 | unit `i` of the doubled text is unit `i / 2` of the original, for every `i` |
| Color.Packed | nox/script.js:134 | a `parseInt` result of `NaN` reads as 0 once the bitwise operators see it, and a plain run of hex digits reads as its value |
| Color.Unpacked | nox/script.js:135 | the three channels taken by shifting and masking are bytes |
| Color.UnpackedPeriodic | nox/script.js:134-135 | changing the parsed integer by any multiple of 2^32 changes no channel, so the `ToInt32` conversion of the shifts can be left out |
| Color.RgbToHex | nox/script.js:137-139 | three bytes print as `#` followed by six lower-case hex digits |
| Color.ChannelHex | nox/script.js:138 | one channel printed as `v.toString(16).padStart(2, '0')`; what it prints for a byte is stated by `Color.ChannelBytes` |
| Color.ChannelBytes | nox/script.js:138 | a byte prints as exactly two lower-case hexadecimal digits whose value is the byte |
| Color.HexRoundTrip | nox/script.js:131-139 | reading back what `rgbToHex` printed for three bytes gives the same three bytes |
| Color.HexToRgbPairs | nox/script.js:131-136 | `#` followed by three two-digit hexadecimal pairs, in either letter case, reads as the triple of the pairs' values |
| Color.CanonicalRoundTrip | nox/script.js:131-139 | printing what `hexToRgb` read from canonical `#rrggbb` text gives the same text back |
| Color.ShorthandExpands | nox/script.js:132-135 | `#rgb` reads as the channels 17·r, 17·g, 17·b |
| Color.ShorthandReadsDoubled | nox/script.js:133 | any three-unit text after the `#` reads the same as its doubled six-character form |
| Color.MixChannel | nox/script.js:142 | `Math.round(x * (1 - ratio) + y * ratio)` with `ratio == p / q`; `Color.MixChannelBetween` states that the result lies between `x` and `y`, and `Theme.DarkenIsMix` gives its closed form towards 0 |
| Color.MixChannelBetween | nox/script.js:142 | for a ratio in [0, 1] the rounded blend of two channels lies between them |
| Color.MixRgb | nox/script.js:141-143 | blending two in-gamut colours with a ratio in [0, 1] stays in gamut, and each channel lies between the inputs' channels |
| Color.MixHexWith | nox/script.js:140-144 | `mixHexWith` prints a canonical colour that reads back as the channel-wise rounded blend of the two colours read, and so lies between them |
| Color.MixEndpoints | nox/script.js:140-144 | ratio 0 yields the first colour and ratio 1 the second, each in canonical spelling |
| Color.Normalized | nox/script.js:131-139 | printing what was read gives canonical text with the same colour, and canonical text is a fixed point |
| Palette.SumPixels | nox/script.js:152-157 | the totals count at most one per pixel, count none exactly when every alpha is below 16, and keep each channel sum within 0..255 times the count |
| Palette.ScanPixels | nox/script.js:152-157 | the four-byte stepping loop computes the totals defined pixel by pixel |
| Palette.SumPixelsAppend | nox/script.js:153-157 | the totals of two concatenated buffers are the sums of their totals |
| Palette.MeanColor | nox/script.js:159 | the rounded mean of the counted pixels is in gamut |
| Palette.ExtractPalette | nox/script.js:152-163 | no palette exactly when no pixel is opaque enough; otherwise the primary is canonical and reads back as the rounded mean, and the accent is the primary mixed 35% towards `#b68cff` if its red exceeds its blue, else towards `#6f7cff` |
| Palette.PaletteOf | nox/script.js:160-163 | from an in-gamut mean colour, the primary is canonical and reads back as that colour, and the accent is canonical and is the primary mixed 35% towards `#b68cff` when red exceeds blue, otherwise towards `#6f7cff` |
| Palette.AccentTarget | nox/script.js:162 | `r > b ? '#b68cff' : '#6f7cff'` on the rounded mean; its use is stated by the accent clause of `Palette.ExtractPalette` |
| Palette.TransparentPixelIgnored | nox/script.js:153-156 | inserting a pixel with alpha below 16 anywhere leaves the palette unchanged |
| Palette.ChannelSumWithin | nox/script.js:155-156 | if every counted pixel's channel lies in [lo, hi], the channel sum lies between lo and hi times the count |
| Palette.PrimaryWithin | nox/script.js:152-160 | each primary channel lies within any bounds that contain that channel of every counted pixel |
| Palette.SolidColour | nox/script.js:152-163 | a logo of one opaque colour yields that colour as primary, and the accent is chosen from that colour |
| Theme.SetThemeFromColors | nox/script.js:124-129 | primary and accent are set as given; `--bg-elev` is canonical and each of its channels is the primary's channel times 0.3 rounded half up, `floor((3v + 5) / 10)` |
| Theme.ElevDarker | nox/script.js:127 | the elevated background is nowhere lighter than the primary, and strictly darker in every channel that is not already 0 |
| Theme.DarkenIsMix | nox/script.js:127 | mixing a channel 70% towards 0 is scaling it by 0.3 with rounding half up |
| Theme.OnLogoLoaded | nox/script.js:182-185 | a logo with no opaque pixel leaves the theme unchanged; otherwise the theme is set from the palette and its primary reads back as the mean colour |
| Theme.ReloadKeepsTheme | nox/script.js:170-185 | processing the same logo again, as the `load` listener does after the upload handler, changes nothing |
| Starfield.Density | nox/script.js:13 | `matches ? 0.0018 : 0.0012` in stars per 10000 pixels; `Starfield.WideHasMore` states that the wide density never gives fewer stars |
| Starfield.StarCount | nox/script.js:13-14 | the count is the largest whole number not above area × density, capped at 800; it is 800 exactly when area × density reaches 800 |
| Starfield.StarCountMonotone | nox/script.js:13-14 | a larger viewport never has fewer stars |
| Starfield.WideHasMore | nox/script.js:13-14 | for the same width and height, the count with the at-least-900px density (0.0018) is never below the count with the narrow density (0.0012) |
| Starfield.EmptyViewport | nox/script.js:14 | a zero-width or zero-height viewport has no stars |
| Starfield.Setup | nox/script.js:40-46 | with reduced motion nothing changes; otherwise the canvas takes the viewport, the stars fit it and the loop runs |
| Starfield.Resize | nox/script.js:48-51 | after a resize the canvas and the stars fit the new viewport, and the loop is neither started nor stopped |
| Starfield.ReducedMotionNeverAnimates | nox/script.js:40-51 | with reduced motion the loop never starts, though a resize still creates stars for the viewport |
| Starfield.ResizeIdempotent | nox/script.js:48-51 | a second resize to the same viewport changes nothing |
| Login.FieldText | nox/script.js:207-208 | a missing form field reads as the empty string, a present one as its text |
| Login.RegexTest | nox/script.js:209 | `/.+@.+\..+/.test(e)` holds when some slice of `e` is a non-empty run, `@`, a non-empty run, `.`, a non-empty run, none of it a line terminator |
| Login.RegexTestWitness | nox/script.js:209 | `/.+@.+\..+/.test(e)` holds exactly when `e` has an `@` with a character before it and a `.` at least two places after it with a character after that, and no line terminator in between |
| Login.Submit | nox/script.js:204-218 | a submit is welcomed exactly when the trimmed email has such an `@`…`.` span and the password has at least 6 UTF-16 code units; then the trimmed email and the time are stored, and otherwise the stored session is untouched |
| Login.Greets | nox/script.js:193-202 | `updateSessionUI` shows the greeting and the logout button exactly when the stored session has a non-empty email |
| Login.Logout | nox/script.js:220-223 | after logout there is no session to greet |
| Login.AcceptedIsGreeted | nox/script.js:193-218 | after a welcomed submit the stored session is one `updateSessionUI` greets on the next page load, so the logout button shows; the status line itself shows the welcome text, and the stored email contains `@`, is at least five characters and has no white space at either end |
| Login.RejectedKeepsGreeting | nox/script.js:211-214 | a refused submit does not change whether a session is greeted |
| Login.AcceptsPlainAddress | nox/script.js:207-215 | `" a@b.co "` with `"123456"` is accepted and stored as `"a@b.co"` |
| Login.RefusesMissingSuffix | nox/script.js:209-213 | `"a@b."` is refused |
| Login.RefusesMissingName | nox/script.js:209-213 | `"@b.co"` is refused |
| Login.RefusesShortPassword | nox/script.js:210-213 | a five-character password is refused |
| Login.RefusesMissingEmail | nox/script.js:207-213 | a form without an email field is refused |
| JsMath.Floor | nox/script.js:14 | `Math.floor(num / den)` is the greatest integer whose multiple of `den` does not exceed `num` |
| JsMath.Round | nox/script.js:159 | `Math.round(num / den)` is the integer nearest to the quotient, halves rounding up |
| JsMath.RoundWithin | nox/script.js:159 | a quotient between two integers rounds to a value between them |
| JsMath.RoundExact | nox/script.js:142 | a whole quotient rounds to itself |

## Left out

- Canvas work is not modelled: creating the 64×64 canvas, `drawImage` downsampling and `getImageData` (nox/script.js:147-151). The model takes the RGBA byte sequence as input. It requires the length to be a multiple of 4, which `getImageData` always provides.
- Star positions, depth and twinkle (`Math.random`, `Math.sin`), `renderStars`, `requestAnimationFrame` and `cancelAnimationFrame` are not modelled. They are randomness, floating-point trigonometry and host drawing. `Starfield.Field` records only whether the loop runs.
- `matchMedia`, `innerWidth` and `innerHeight` are parameters: the wide and reduced-motion flags, and the viewport size in whole pixels.
- The upload handler's object URL, `logo.src` and the `.brand` class change (nox/script.js:166-179) are not modelled. They are DOM work; only the palette step is modelled.
- `localStorage`, `JSON.stringify` and `JSON.parse` are not modelled. The stored session is an `Option<Session>` value, and `Date.now()` is the `now` parameter.
- Status texts are tags. The Portuguese messages become `CheckFields` and `Welcome`, and the greeting is the `Greets` predicate.
- The radial menu, the curiosities grid and the footer year are not part of this model.
- Color.HexToRgb: `parseInt` results are taken as exact integers. JavaScript rounds values above 2^53 to doubles, and a value of 2^1024 − 2^970 or more to `Infinity`, which reads as 0. This only affects inputs with more than 13 hex digits after leading zeros.
- Color.MixHexWith: the blend is computed with the exact ratios 7/10 and 35/100 rather than the binary doubles `1 - 0.7` and `1 - 0.35`. An input whose exact blend falls on a rounding half-way point could round the other way in floating point.
- Starfield.StarCount: the density is the exact rational 18/10000 or 12/10000. A floating-point product that lands just below an integer could yield one star fewer than the model.
- Color.Expanded: `split('')` splits into UTF-16 code units, while the model doubles whole characters. For a three-unit text holding a character outside the Basic Multilingual Plane the doubled texts differ. Both read the same value, because `parseInt` stops at the first non-digit either way.
- Login.Submit: the regular expression is modelled by what it matches, not by a backtracking matcher.

=== FILE: color.dfy ===
/** The colour codec and linear mixing of nox/script.js: `hexToRgb`,
    `rgbToHex` and `mixHexWith`, with `Math.round` on exact rationals. */
module Color {
  import JsText
  import opened HexNumber
  import opened JsMath

  /** The `{ r, g, b }` record `hexToRgb` returns (and the three arguments
      of `rgbToHex`). */
  datatype Rgb = Rgb(r: int, g: int, b: int)

  predicate IsChannel(v: int) {
    0 <= v < 256
  }

  /** One element of a canvas's `Uint8ClampedArray`. */
  type Byte = x: int | IsChannel(x)

  predicate InGamut(c: Rgb) {
    IsChannel(c.r) && IsChannel(c.g) && IsChannel(c.b)
  }

  /** What `rgbToHex` prints for an in-gamut triple: `#` then six
      lower-case hexadecimal digits. */
  predicate IsCanonicalHex(s: string) {
    |s| == 7 && s[0] == '#' && AllLowerHexDigits(s[1..])
  }

  /** `s.replace(c, '')` with a one-character string pattern: only the
      first occurrence is removed. */
  function RemoveFirst(s: string, c: char): (r: string)
    ensures c !in s ==> r == s
    ensures c in s ==> |r| == |s| - 1
    ensures |s| > 0 && s[0] == c ==> r == s[1..]
    ensures forall i :: 0 <= i < |s| && s[i] == c && c !in s[..i] ==> r == s[..i] + s[i + 1..]
  {
    if |s| == 0 then s
    else if s[0] == c then
      assert s == [s[0]] + s[1..];
      s[1..]
    else
      var t := RemoveFirst(s[1..], c);
      KeepsHead(s, c, t);
      [s[0]] + t
  }

  /** The step of `RemoveFirst` past a character that is not `c`. */
  lemma KeepsHead(s: string, c: char, t: string)
    requires |s| > 0 && s[0] != c
    requires forall i :: 0 <= i < |s| - 1 && s[1..][i] == c && c !in s[1..][..i] ==> t == s[1..][..i] + s[1..][i + 1..]
    ensures forall i :: 0 <= i < |s| && s[i] == c && c !in s[..i] ==> [s[0]] + t == s[..i] + s[i + 1..]
  {
    forall i | 0 <= i < |s| && s[i] == c && c !in s[..i]
      ensures [s[0]] + t == s[..i] + s[i + 1..]
    {
      assert s[1..][i - 1] == s[i];
      assert s[..i] == [s[0]] + s[1..][..i - 1];
      assert c !in s[1..][..i - 1];
      assert s[i + 1..] == s[1..][i..];
    }
  }

  /** `n.split('').map(x => x + x).join('')`: every character doubled. */
  function DoubleEach(n: string): (v: string)
    ensures |v| == 2 * |n|
  {
    if |n| == 0 then [] else [n[0], n[0]] + DoubleEach(n[1..])
  }

  /** Unit `i` of the doubled text is unit `i / 2` of the original. */
  lemma {:induction false} DoubledAt(n: string)
    ensures forall i :: 0 <= i < 2 * |n| ==> DoubleEach(n)[i] == n[i / 2]
  {
    if |n| > 0 {
      DoubledAt(n[1..]);
      var t := DoubleEach(n[1..]);
      assert DoubleEach(n) == [n[0], n[0]] + t;
      forall i | 2 <= i < 2 * |n|
        ensures DoubleEach(n)[i] == n[i / 2]
      {
        assert DoubleEach(n)[i] == t[i - 2] == n[1..][(i - 2) / 2];
      }
    }
  }

  /** `hexToRgb`: drop the first `#`, expand a three-unit shorthand, read
      the rest with `parseInt(v, 16)` (`NaN` reads as 0 once it meets a
      bitwise operator), and take bits 16-23, 8-15 and 0-7 of the result.
      Every channel is therefore a byte, whatever the input. */
  function HexToRgb(hex: string): (c: Rgb)
    ensures InGamut(c)
  {
    Unpacked(Packed(Expanded(RemoveFirst(hex, '#'))))
  }

  /** The shorthand step: a string of exactly three UTF-16 code units has
      each of its characters doubled. */
  function Expanded(n: string): (v: string)
    ensures JsText.Utf16Length(n) != 3 ==> v == n
    ensures JsText.Utf16Length(n) == 3 ==> |v| == 2 * |n| && forall i :: 0 <= i < |v| ==> v[i] == n[i / 2]
  {
    DoubledAt(n);
    if JsText.Utf16Length(n) == 3 then DoubleEach(n) else n
  }

  /** `parseInt(v, 16)` as the bitwise operators see it: `NaN` is 0. */
  function Packed(v: string): (i: int)
    ensures ParseIntHex(v).None? ==> i == 0
    ensures |v| > 0 && AllHexDigits(v) ==> i == HexValue(v)
  {
    ParseIntHex(v).GetOr(0)
  }

  /** `(i >> 16) & 255`, `(i >> 8) & 255`, `i & 255`. `ToInt32` keeps `i`
      modulo 2^32, the arithmetic shift divides rounding down, and the mask
      keeps the remainder modulo 256, so each channel is
      `floor(i / 2^k) mod 256` also for negative `i`. */
  function Unpacked(i: int): (c: Rgb)
    ensures InGamut(c)
  {
    Rgb((i / 0x1_0000) % 256, (i / 0x100) % 256, i % 256)
  }

  /** `ToInt32` changes its argument by a multiple of 2^32, and the three
      channels do not see such a change, so leaving it out is sound. */
  lemma UnpackedPeriodic(i: int, k: int)
    ensures Unpacked(i + 0x1_0000_0000 * k) == Unpacked(i)
  {
    var j := i + 0x1_0000_0000 * k;
    assert j == i + 0x1_0000 * (0x1_0000 * k) == i + 0x100 * (0x100_0000 * k) == i + 256 * (0x100_0000 * k);
    DivShift(i, 0x1_0000, 0x1_0000 * k);
    DivShift(i, 0x100, 0x100_0000 * k);
    ModShift(i / 0x1_0000, 0x100 * k);
    ModShift(i / 0x100, 0x1_0000 * k);
    ModShift(i, 0x100_0000 * k);
  }

  lemma DivShift(i: int, d: int, q: int)
    requires d > 0
    ensures (i + d * q) / d == i / d + q
  {
    var r := i / d;
    assert d * r <= i < d * r + d;
    assert d * (r + q) == d * r + d * q;
    DivIsUnique(i + d * q, d, r + q);
  }

  lemma ModShift(x: int, q: int)
    ensures (x + 256 * q) % 256 == x % 256
  {
    DivShift(x, 256, q);
  }

  /** One argument of `rgbToHex`: `v.toString(16).padStart(2, '0')`. */
  function ChannelHex(v: int): string {
    PadStart2(IntToHex(v))
  }

  /** `rgbToHex(r, g, b)`. */
  function RgbToHex(r: int, g: int, b: int): (s: string)
    ensures IsChannel(r) && IsChannel(g) && IsChannel(b) ==> IsCanonicalHex(s)
  {
    ChannelBytes(r);
    ChannelBytes(g);
    ChannelBytes(b);
    var s := "#" + (ChannelHex(r) + ChannelHex(g) + ChannelHex(b));
    CanonicalOfPairs(ChannelHex(r), ChannelHex(g), ChannelHex(b));
    s
  }

  lemma CanonicalOfPairs(x: string, y: string, z: string)
    ensures |x| == 2 && |y| == 2 && |z| == 2
            && AllLowerHexDigits(x) && AllLowerHexDigits(y) && AllLowerHexDigits(z)
            ==> IsCanonicalHex("#" + (x + y + z))
  {
    if |x| == 2 && |y| == 2 && |z| == 2 {
      var s := "#" + (x + y + z);
      assert s[1..] == x + y + z;
    }
  }

  /** A byte prints as exactly two lower-case digits denoting it. */
  lemma ChannelBytes(v: int)
    ensures IsChannel(v) ==> |ChannelHex(v)| == 2 && AllLowerHexDigits(ChannelHex(v))
                             && AllHexDigits(ChannelHex(v)) && HexValue(ChannelHex(v)) == v
  {
    if IsChannel(v) {
      var s := NatToHex(v);
      if v < 16 {
        var t := ChannelHex(v);
        assert t == ['0'] + s;
        assert t[..1] == ['0'];
        assert HexValue(t) == 16 * HexValue(t[..1]) + DigitValue(t[1]);
      } else {
        assert |NatToHex(v / 16)| == 1;
        assert |s| == 2;
        assert ChannelHex(v) == s;
      }
    }
  }

  /** Reading back the byte a two-digit lower-case numeral denotes prints
      the same numeral. */
  lemma ChannelHexOfPair(t: string)
    requires |t| == 2 && AllLowerHexDigits(t)
    ensures AllHexDigits(t) && IsChannel(HexValue(t)) && ChannelHex(HexValue(t)) == t
  {
    TwoDigitValue(t);
    var d0, d1 := DigitValue(t[0]), DigitValue(t[1]);
    LowerDigitOf(t[0]);
    LowerDigitOf(t[1]);
    assert t == [LowerDigit(d0), LowerDigit(d1)];
    PairPrints(d0, d1);
  }

  /** A byte given by its two digits prints as those two digits. */
  lemma PairPrints(d0: nat, d1: nat)
    requires d0 < 16 && d1 < 16
    ensures ChannelHex(16 * d0 + d1) == [LowerDigit(d0), LowerDigit(d1)]
  {
    if d0 == 0 {
      PrintsOneDigit(d1);
      assert LowerDigit(0) == '0';
    } else {
      PrintsTwoDigits(d0, d1);
    }
  }

  lemma PrintsOneDigit(d: nat)
    requires d < 16
    ensures ChannelHex(d) == ['0', LowerDigit(d)]
  {
    assert NatToHex(d) == [LowerDigit(d)];
  }

  lemma PrintsTwoDigits(d0: nat, d1: nat)
    requires 1 <= d0 < 16 && d1 < 16
    ensures ChannelHex(16 * d0 + d1) == [LowerDigit(d0), LowerDigit(d1)]
  {
    var v := 16 * d0 + d1;
    assert v >= 16 && v / 16 == d0 && v % 16 == d1;
    assert NatToHex(v) == NatToHex(d0) + [LowerDigit(d1)];
    assert NatToHex(d0) == [LowerDigit(d0)];
    assert IntToHex(v) == [LowerDigit(d0), LowerDigit(d1)];
  }

  /** A two-digit numeral is a byte, its first digit counting sixteen. */
  lemma TwoDigitValue(t: string)
    requires |t| == 2 && AllHexDigits(t)
    ensures HexValue(t) == 16 * DigitValue(t[0]) + DigitValue(t[1])
    ensures IsChannel(HexValue(t))
  {
    assert t[..1] == [t[0]];
    assert [t[0]][..0] == [];
    assert HexValue([t[0]]) == DigitValue(t[0]);
    assert HexValue(t) == 16 * HexValue(t[..1]) + DigitValue(t[1]);
  }

  lemma LowerDigitOf(c: char)
    requires IsLowerHexDigit(c)
    ensures LowerDigit(DigitValue(c)) == c
  {
  }

  /** Bytes packed most significant first come back out of the shifts and
      masks of `hexToRgb`. */
  lemma Unpack(r: int, g: int, b: int)
    requires IsChannel(r) && IsChannel(g) && IsChannel(b)
    ensures Unpacked(r * 0x1_0000 + g * 0x100 + b) == Rgb(r, g, b)
  {
    var i := r * 0x1_0000 + g * 0x100 + b;
    assert i / 0x1_0000 == r;
    assert i / 0x100 == r * 0x100 + g;
    assert (r * 0x100 + g) % 256 == g;
  }

  lemma AsciiUtf16Length(s: string)
    requires AllHexDigits(s)
    ensures JsText.Utf16Length(s) == |s|
  {
  }

  /** `hexToRgb` on `#` and three two-digit numerals of any case. */
  lemma HexToRgbPairs(a: string, b: string, c: string)
    requires |a| == 2 && |b| == 2 && |c| == 2
    requires AllHexDigits(a) && AllHexDigits(b) && AllHexDigits(c)
    ensures HexToRgb("#" + (a + b + c)) == Rgb(HexValue(a), HexValue(b), HexValue(c))
  {
    ReadsSixDigits(a + b + c);
    UnpackPairs(a, b, c);
  }

  lemma ReadsSixDigits(v: string)
    requires |v| == 6 && AllHexDigits(v)
    ensures HexToRgb("#" + v) == Unpacked(HexValue(v))
  {
    StripHash(v);
    PlainSixDigits(v);
  }

  lemma UnpackPairs(a: string, b: string, c: string)
    requires |a| == 2 && |b| == 2 && |c| == 2
    requires AllHexDigits(a) && AllHexDigits(b) && AllHexDigits(c)
    ensures AllHexDigits(a + b + c)
    ensures Unpacked(HexValue(a + b + c)) == Rgb(HexValue(a), HexValue(b), HexValue(c))
  {
    PairsValue(a, b, c);
    Unpack(HexValue(a), HexValue(b), HexValue(c));
  }

  lemma PairsValue(a: string, b: string, c: string)
    requires |a| == 2 && |b| == 2 && |c| == 2
    requires AllHexDigits(a) && AllHexDigits(b) && AllHexDigits(c)
    ensures AllHexDigits(a + b + c)
    ensures IsChannel(HexValue(a)) && IsChannel(HexValue(b)) && IsChannel(HexValue(c))
    ensures HexValue(a + b + c) == HexValue(a) * 0x1_0000 + HexValue(b) * 0x100 + HexValue(c)
  {
    HexValueAppend(a, b);
    HexValueAppend(a + b, c);
    TwoDigitValue(a);
    TwoDigitValue(b);
    TwoDigitValue(c);
    assert Pow16(2) == 0x100;
    assert Pow16(4) == 0x1_0000;
  }

  lemma StripHash(v: string)
    ensures HexToRgb("#" + v) == Unpacked(Packed(Expanded(v)))
  {
    assert ("#" + v)[1..] == v;
  }

  lemma PlainSixDigits(v: string)
    requires |v| == 6 && AllHexDigits(v)
    ensures Packed(Expanded(v)) == HexValue(v)
  {
    AsciiUtf16Length(v);
  }

  /** Round trip, triple first: printing an in-gamut triple and parsing the
      text gives the triple back. */
  lemma HexRoundTrip(c: Rgb)
    requires InGamut(c)
    ensures HexToRgb(RgbToHex(c.r, c.g, c.b)) == c
  {
    ChannelBytes(c.r);
    ChannelBytes(c.g);
    ChannelBytes(c.b);
    HexToRgbPairs(ChannelHex(c.r), ChannelHex(c.g), ChannelHex(c.b));
  }

  /** Round trip, text first: parsing a canonical colour and printing the
      triple gives the text back, so `rgbToHex` and `hexToRgb` are inverse
      bijections between in-gamut triples and canonical strings. */
  lemma CanonicalRoundTrip(s: string)
    requires IsCanonicalHex(s)
    ensures var c := HexToRgb(s); RgbToHex(c.r, c.g, c.b) == s
  {
    var p, q, t := s[1..3], s[3..5], s[5..7];
    assert AllLowerHexDigits(p) && AllLowerHexDigits(q) && AllLowerHexDigits(t);
    assert s == "#" + (p + q + t);
    HexToRgbPairs(p, q, t);
    ChannelHexOfPair(p);
    ChannelHexOfPair(q);
    ChannelHexOfPair(t);
  }

  /** The three-digit shorthand gives each digit `d` the channel value
      `17 * d` (`0xdd`). */
  lemma ShorthandExpands(x: char, y: char, z: char)
    requires IsHexDigit(x) && IsHexDigit(y) && IsHexDigit(z)
    ensures HexToRgb("#" + [x, y, z]) == Rgb(17 * DigitValue(x), 17 * DigitValue(y), 17 * DigitValue(z))
  {
    var n := [x, y, z];
    AsciiUtf16Length(n);
    ShorthandReadsDoubled(n);
    DoubleThree(x, y, z);
    PairOfOneDigit([x, x], x);
    PairOfOneDigit([y, y], y);
    PairOfOneDigit([z, z], z);
    HexToRgbPairs([x, x], [y, y], [z, z]);
  }

  lemma DoubleThree(x: char, y: char, z: char)
    ensures DoubleEach([x, y, z]) == [x, x] + [y, y] + [z, z]
  {
    assert [x, y, z][1..] == [y, z] && [y, z][1..] == [z] && [z][1..] == [];
    assert DoubleEach([z]) == [z, z];
    assert DoubleEach([y, z]) == [y, y, z, z];
    assert DoubleEach([x, y, z]) == [x, x, y, y, z, z];
  }

  lemma PairOfOneDigit(t: string, c: char)
    requires IsHexDigit(c) && t == [c, c]
    ensures AllHexDigits(t) && HexValue(t) == 17 * DigitValue(c)
  {
    TwoDigitValue(t);
  }

  /** Any body of three UTF-16 code units after the `#` reads exactly as
      its doubled form: `#abc` and `#aabbcc` are the same colour. */
  lemma ShorthandReadsDoubled(n: string)
    requires JsText.Utf16Length(n) == 3
    ensures HexToRgb("#" + n) == HexToRgb("#" + DoubleEach(n))
  {
    var v := DoubleEach(n);
    assert RemoveFirst("#" + n, '#') == n;
    assert RemoveFirst("#" + v, '#') == v;
    DoubledUtf16Length(n);
    assert Expanded(n) == v;
    assert Expanded(v) == v;
  }

  lemma {:induction false} DoubledUtf16Length(n: string)
    ensures JsText.Utf16Length(DoubleEach(n)) == 2 * JsText.Utf16Length(n)
  {
    if |n| > 0 {
      var m := n[..|n| - 1];
      var v := DoubleEach(n);
      DoubledUtf16Length(m);
      DoubleEachSnoc(m, n[|n| - 1]);
      assert n == m + [n[|n| - 1]];
      assert v[..|v| - 1] == DoubleEach(m) + [n[|n| - 1]];
      assert v[..|v| - 1][..|v| - 2] == DoubleEach(m);
    }
  }

  lemma {:induction false} DoubleEachSnoc(m: string, c: char)
    ensures DoubleEach(m + [c]) == DoubleEach(m) + [c, c]
  {
    if |m| > 0 {
      assert (m + [c])[1..] == m[1..] + [c];
      DoubleEachSnoc(m[1..], c);
    } else {
      assert m + [c] == [c];
    }
  }

  /** One channel of `mixHexWith`: `Math.round(x * (1 - ratio) + y * ratio)`
      with `ratio == p / q`. */
  function MixChannel(x: int, y: int, p: int, q: int): int
    requires q > 0
  {
    Round(x * (q - p) + y * p, q)
  }

  predicate Between(v: int, x: int, y: int) {
    (x <= v <= y) || (y <= v <= x)
  }

  /** Each channel of `m` lies between the corresponding channels of `a`
      and `b`. */
  predicate ChannelsBetween(m: Rgb, a: Rgb, b: Rgb) {
    Between(m.r, a.r, b.r) && Between(m.g, a.g, b.g) && Between(m.b, a.b, b.b)
  }

  /** For a ratio in [0, 1] the mixed channel lies between its two inputs. */
  lemma MixChannelBetween(x: int, y: int, p: int, q: int)
    requires q > 0
    ensures 0 <= p <= q ==> Between(MixChannel(x, y, p, q), x, y)
  {
    if 0 <= p <= q {
      var lo := if x <= y then x else y;
      var hi := if x <= y then y else x;
      MulMono(q - p, lo, x);
      MulMono(p, lo, y);
      MulMono(q - p, x, hi);
      MulMono(p, y, hi);
      assert (q - p) * lo + p * lo == q * lo;
      assert (q - p) * hi + p * hi == q * hi;
      RoundWithin(x * (q - p) + y * p, q, lo, hi);
    }
  }

  /** The three mixed channels of `mixHexWith`, before printing. */
  function MixRgb(a: Rgb, b: Rgb, p: int, q: int): (m: Rgb)
    requires q > 0
    ensures InGamut(a) && InGamut(b) && 0 <= p <= q ==> InGamut(m) && ChannelsBetween(m, a, b)
  {
    MixChannelBetween(a.r, b.r, p, q);
    MixChannelBetween(a.g, b.g, p, q);
    MixChannelBetween(a.b, b.b, p, q);
    Rgb(MixChannel(a.r, b.r, p, q), MixChannel(a.g, b.g, p, q), MixChannel(a.b, b.b, p, q))
  }

  /** `mixHexWith(hex, withHex, p / q)`. For a ratio in [0, 1] the result is
      a canonical colour whose every channel lies between the channels of
      the two inputs. */
  function MixHexWith(hex: string, withHex: string, p: int, q: int): (s: string)
    requires q > 0
    ensures 0 <= p <= q ==> IsCanonicalHex(s) && ChannelsBetween(HexToRgb(s), HexToRgb(hex), HexToRgb(withHex))
    ensures 0 <= p <= q ==> HexToRgb(s) == MixRgb(HexToRgb(hex), HexToRgb(withHex), p, q)
  {
    var m := MixRgb(HexToRgb(hex), HexToRgb(withHex), p, q);
    PrintedMix(HexToRgb(hex), HexToRgb(withHex), p, q);
    RgbToHex(m.r, m.g, m.b)
  }

  lemma PrintedMix(a: Rgb, b: Rgb, p: int, q: int)
    requires q > 0 && InGamut(a) && InGamut(b)
    ensures var m := MixRgb(a, b, p, q);
            0 <= p <= q ==> IsCanonicalHex(RgbToHex(m.r, m.g, m.b))
                            && HexToRgb(RgbToHex(m.r, m.g, m.b)) == m
                            && ChannelsBetween(m, a, b)
  {
    var m := MixRgb(a, b, p, q);
    if 0 <= p <= q {
      HexRoundTrip(m);
    }
  }

  /** The text `rgbToHex` prints for the colour `hexToRgb` reads. */
  function Normalized(hex: string): (s: string)
    ensures IsCanonicalHex(s) && HexToRgb(s) == HexToRgb(hex)
    ensures IsCanonicalHex(hex) ==> s == hex
  {
    var c := HexToRgb(hex);
    HexRoundTrip(c);
    assert IsCanonicalHex(hex) ==> RgbToHex(c.r, c.g, c.b) == hex by {
      if IsCanonicalHex(hex) { CanonicalRoundTrip(hex); }
    }
    RgbToHex(c.r, c.g, c.b)
  }

  /** Ratio 0 keeps the first colour and ratio 1 yields the second, each
      in its canonical spelling. */
  lemma MixEndpoints(hex: string, withHex: string, q: int)
    requires q > 0
    ensures MixHexWith(hex, withHex, 0, q) == Normalized(hex)
    ensures MixHexWith(hex, withHex, q, q) == Normalized(withHex)
  {
    var a, b := HexToRgb(hex), HexToRgb(withHex);
    RoundExact(a.r, q);
    RoundExact(a.g, q);
    RoundExact(a.b, q);
    RoundExact(b.r, q);
    RoundExact(b.g, q);
    RoundExact(b.b, q);
    assert a.r * (q - 0) + b.r * 0 == a.r * q;
    assert a.g * (q - 0) + b.g * 0 == a.g * q;
    assert a.b * (q - 0) + b.b * 0 == a.b * q;
    assert a.r * (q - q) + b.r * q == b.r * q;
    assert a.g * (q - q) + b.g * q == b.g * q;
    assert a.b * (q - q) + b.b * q == b.b * q;
  }
}

=== FILE: hex_number.dfy ===
/** Base-16 numerals as ECMAScript reads and writes them:
    `parseInt(s, 16)` and `Number.prototype.toString(16)` on integers. */
module HexNumber {
  import opened Wrappers
  import JsText

  predicate IsHexDigit(c: char) {
    ('0' <= c <= '9') || ('a' <= c <= 'f') || ('A' <= c <= 'F')
  }

  predicate IsLowerHexDigit(c: char) {
    ('0' <= c <= '9') || ('a' <= c <= 'f')
  }

  predicate AllHexDigits(s: string) {
    forall i :: 0 <= i < |s| ==> IsHexDigit(s[i])
  }

  predicate AllLowerHexDigits(s: string) {
    forall i :: 0 <= i < |s| ==> IsLowerHexDigit(s[i])
  }

  function DigitValue(c: char): (d: nat)
    requires IsHexDigit(c)
    ensures d < 16
  {
    if '0' <= c <= '9' then (c as int) - ('0' as int)
    else if 'a' <= c <= 'f' then (c as int) - ('a' as int) + 10
    else (c as int) - ('A' as int) + 10
  }

  /** The lower-case digit `toString(16)` prints for `d`. */
  function LowerDigit(d: nat): (c: char)
    requires d < 16
    ensures IsLowerHexDigit(c) && DigitValue(c) == d
  {
    if d < 10 then ('0' as int + d) as char else ('a' as int + d - 10) as char
  }

  /** The value of a numeral, most significant digit first. */
  function HexValue(s: string): (v: nat)
    requires AllHexDigits(s)
  {
    if |s| == 0 then 0 else 16 * HexValue(s[..|s| - 1]) + DigitValue(s[|s| - 1])
  }

  function Pow16(k: nat): nat {
    if k == 0 then 1 else 16 * Pow16(k - 1)
  }

  /** A numeral split in two: the left part counts `16^|b|` times. */
  lemma {:induction false} HexValueAppend(a: string, b: string)
    requires AllHexDigits(a) && AllHexDigits(b)
    ensures AllHexDigits(a + b)
    ensures HexValue(a + b) == HexValue(a) * Pow16(|b|) + HexValue(b)
  {
    if |b| == 0 {
      assert a + b == a;
    } else {
      var b' := b[..|b| - 1];
      var d := DigitValue(b[|b| - 1]);
      AppendLast(a, b);
      var x, p, y := HexValue(a), Pow16(|b'|), HexValue(b');
      assert HexValue(a + b) == 16 * HexValue(a + b') + d;
      assert HexValue(a + b') == x * p + y by {
        HexValueAppend(a, b');
      }
      assert HexValue(b) == 16 * y + d;
      assert Pow16(|b|) == 16 * p;
      ShiftDigit(HexValue(a + b), HexValue(a + b'), HexValue(b), Pow16(|b|), x, p, y, d);
    }
  }

  /** The last digit of `a + b` is the last digit of a non-empty `b`. */
  lemma AppendLast(a: string, b: string)
    requires AllHexDigits(a) && AllHexDigits(b) && |b| > 0
    ensures AllHexDigits(a + b) && AllHexDigits(b[..|b| - 1])
    ensures HexValue(a + b) == 16 * HexValue(a + b[..|b| - 1]) + DigitValue(b[|b| - 1])
  {
    var b' := b[..|b| - 1];
    assert (a + b)[..|a + b| - 1] == a + b';
    assert (a + b)[|a + b| - 1] == b[|b| - 1];
  }

  /** The place-value step: one more digit on the right multiplies the
      left part's weight by sixteen. */
  lemma ShiftDigit(h: int, h': int, hb: int, w: int, x: int, p: int, y: int, d: int)
    requires h == 16 * h' + d && h' == x * p + y && hb == 16 * y + d && w == 16 * p
    ensures h == x * w + hb
  {
    assert 16 * (x * p) == x * (16 * p);
  }

  /** `n.toString(16)` for a non-negative integer `n`: lower-case digits,
      no leading zero. */
  function NatToHex(n: nat): (s: string)
    ensures |s| >= 1 && AllLowerHexDigits(s)
    ensures AllHexDigits(s) && HexValue(s) == n
    ensures |s| > 1 ==> s[0] != '0'
    ensures n < 16 <==> |s| == 1
    decreases n
  {
    if n < 16 then [LowerDigit(n)]
    else
      var s := NatToHex(n / 16) + [LowerDigit(n % 16)];
      assert s[..|s| - 1] == NatToHex(n / 16);
      s
  }

  /** `v.toString(16)` for an integer `v`: a minus sign before the digits of
      its magnitude when it is negative. */
  function IntToHex(v: int): (s: string)
    ensures v >= 0 ==> |s| >= 1 && AllLowerHexDigits(s) && AllHexDigits(s) && HexValue(s) == v
                       && (|s| > 1 ==> s[0] != '0')
    ensures v < 0 ==> |s| >= 2 && s[0] == '-' && AllLowerHexDigits(s[1..]) && AllHexDigits(s[1..])
                      && HexValue(s[1..]) == -v && (|s| > 2 ==> s[1] != '0')
  {
    if v < 0 then ['-'] + NatToHex(-v) else NatToHex(v)
  }

  /** `s.padStart(2, '0')`: text of two or more UTF-16 code units is kept,
      shorter text gets `0`s in front up to two units. */
  function PadStart2(s: string): (r: string)
    ensures JsText.Utf16Length(s) >= 2 ==> r == s
    ensures JsText.Utf16Length(s) < 2 ==>
              (JsText.Utf16Length(r) == 2 && |r| == 2 && r[2 - |s|..] == s
               && forall i :: 0 <= i < 2 - |s| ==> r[i] == '0')
  {
    var n := JsText.Utf16Length(s);
    if n >= 2 then s
    else if n == 1 then
      var r := ['0'] + s;
      assert r[..1] == ['0'] && r[..1][..0] == [];
      r
    else "00"
  }

  /** One character outside the Basic Multilingual Plane is already two
      code units long, so nothing is put in front of it. */
  lemma PadKeepsAstral(c: char)
    requires c as int >= 0x1_0000
    ensures PadStart2([c]) == [c]
  {
    assert [c][..0] == [];
    assert JsText.Utf16Length([c]) == 2;
  }

  /** The longest prefix of `s` made of hexadecimal digits. */
  function HexPrefix(s: string): (z: string)
    ensures |z| <= |s| && z == s[..|z|] && AllHexDigits(z)
    ensures |z| == |s| || !IsHexDigit(s[|z|])
  {
    if |s| > 0 && IsHexDigit(s[0]) then
      var t := HexPrefix(s[1..]);
      assert [s[0]] + t == s[..|t| + 1];
      [s[0]] + t
    else []
  }

  /** `parseInt(s, 16)` on its exact integer value: skip leading white
      space, read one optional sign, drop an optional `0x`/`0X`, then read
      the longest run of hex digits; `None` is `NaN` (no digit at all). */
  function ParseIntHex(s: string): (r: Option<int>)
    ensures AllHexDigits(s) && |s| > 0 ==> r == Some(HexValue(s))
    ensures (|s| == 0 || !IsHexDigit(s[0])) && (|s| == 0 || (!JsText.IsWhiteSpace(s[0]) && s[0] != '+' && s[0] != '-')) ==> r == None
  {
    var t := JsText.TrimStart(s);
    var z := HexPrefix(StripRadix(Unsigned(t)));
    PlainDigitsRead(s);
    NoDigitRead(s);
    if |z| == 0 then None else Some(SignOf(t) * HexValue(z))
  }

  /** A plain run of digits passes through every step unchanged. */
  lemma PlainDigitsRead(s: string)
    ensures AllHexDigits(s) && |s| > 0 ==>
      var t := JsText.TrimStart(s);
      t == s && SignOf(t) == 1 && HexPrefix(StripRadix(Unsigned(t))) == s
  {
    if AllHexDigits(s) && |s| > 0 {
      assert !JsText.IsWhiteSpace(s[0]);
      assert JsText.TrimStart(s) == s;
      assert Unsigned(s) == s;
      if |s| >= 2 && s[0] == '0' {
        assert IsHexDigit(s[1]);
      }
      assert StripRadix(s) == s;
      HexPrefixOf(s, []);
      assert s + [] == s;
    }
  }

  /** Text that starts with none of a digit, white space or a sign has no
      digit run to read. */
  lemma NoDigitRead(s: string)
    ensures (|s| == 0 || !IsHexDigit(s[0])) && (|s| == 0 || (!JsText.IsWhiteSpace(s[0]) && s[0] != '+' && s[0] != '-')) ==>
      HexPrefix(StripRadix(Unsigned(JsText.TrimStart(s)))) == []
  {
    if (|s| == 0 || !IsHexDigit(s[0])) && (|s| == 0 || (!JsText.IsWhiteSpace(s[0]) && s[0] != '+' && s[0] != '-')) {
      assert JsText.TrimStart(s) == s;
      assert Unsigned(s) == s;
      assert StripRadix(s) == s;
    }
  }

  /** -1 when the text starts with a minus sign, otherwise 1. */
  function SignOf(t: string): int {
    if |t| > 0 && t[0] == '-' then -1 else 1
  }

  /** The text after one leading `+` or `-`. */
  function Unsigned(t: string): string {
    if |t| > 0 && (t[0] == '+' || t[0] == '-') then t[1..] else t
  }

  /** The text after a leading `0x` or `0X`. */
  function StripRadix(u: string): string {
    if |u| >= 2 && u[0] == '0' && (u[1] == 'x' || u[1] == 'X') then u[2..] else u
  }

  /** The longest hex prefix of `digits + rest` is `digits` when `rest`
      does not continue the run. */
  lemma HexPrefixOf(digits: string, rest: string)
    requires AllHexDigits(digits)
    requires rest == [] || !IsHexDigit(rest[0])
    ensures HexPrefix(digits + rest) == digits
  {
    var w := digits + rest;
    var z := HexPrefix(w);
    assert w[..|digits|] == digits;
  }

  /** What `parseInt(s, 16)` reads from white space, an optional sign, an
      optional `0x` or `0X`, a run of hex digits and anything after the
      run that is not a hex digit: the signed value of the run. A lone `0`
      directly followed by `x` is the radix prefix, not the run. */
  lemma ParseIntHexReads(ws: string, sign: string, prefix: string, digits: string, rest: string)
    requires forall i :: 0 <= i < |ws| ==> JsText.IsWhiteSpace(ws[i])
    requires sign == "" || sign == "+" || sign == "-"
    requires prefix == "" || prefix == "0x" || prefix == "0X"
    requires |digits| > 0 && AllHexDigits(digits)
    requires rest == [] || !IsHexDigit(rest[0])
    requires prefix == "" && digits == "0" && rest != [] ==> rest[0] != 'x' && rest[0] != 'X'
    ensures ParseIntHex(ws + (sign + (prefix + (digits + rest)))) == Some((if sign == "-" then -1 else 1) * HexValue(digits))
  {
    var body := sign + (prefix + (digits + rest));
    SignedBody(sign, prefix, digits, rest);
    JsText.LeadingWhiteOf(ws, body);
    RadixStripped(prefix, digits, rest);
    HexPrefixOf(digits, rest);
  }

  lemma SignedBody(sign: string, prefix: string, digits: string, rest: string)
    requires sign == "" || sign == "+" || sign == "-"
    requires prefix == "" || prefix == "0x" || prefix == "0X"
    requires |digits| > 0 && AllHexDigits(digits)
    ensures var body := sign + (prefix + (digits + rest));
            && body != [] && !JsText.IsWhiteSpace(body[0])
            && Unsigned(body) == prefix + (digits + rest)
            && SignOf(body) == if sign == "-" then -1 else 1
  {
    var x := prefix + (digits + rest);
    assert x[0] == if prefix == "" then digits[0] else '0';
    assert (sign + x)[0] == if sign == "" then x[0] else sign[0];
    assert sign != "" ==> (sign + x)[1..] == x;
  }

  lemma RadixStripped(prefix: string, digits: string, rest: string)
    requires prefix == "" || prefix == "0x" || prefix == "0X"
    requires |digits| > 0 && AllHexDigits(digits)
    requires prefix == "" && digits == "0" && rest != [] ==> rest[0] != 'x' && rest[0] != 'X'
    ensures StripRadix(prefix + (digits + rest)) == digits + rest
  {
    var u := prefix + (digits + rest);
    if prefix == "" {
      assert u == digits + rest;
      if |u| >= 2 {
        assert u[1] == if |digits| >= 2 then digits[1] else rest[0];
      }
    } else {
      assert u[..2] == prefix && u[2..] == digits + rest;
    }
  }
}

=== FILE: js_math.dfy ===
/** `Math.round` and `Math.floor` applied to an exact rational `num / den`
    (the page script applies them to quotients and products of
    non-negative numbers). */
module JsMath {

  /** `Math.floor(num / den)`: the greatest integer not above the quotient. */
  function Floor(num: int, den: int): (r: int)
    requires den > 0
    ensures r * den <= num < (r + 1) * den
  {
    num / den
  }

  /** `Math.round(num / den)`: the nearest integer, halves rounding up
      (towards +infinity), i.e. `floor(num / den + 1/2)`. */
  function Round(num: int, den: int): (r: int)
    requires den > 0
    ensures 2 * r * den <= 2 * num + den < 2 * (r + 1) * den
  {
    (2 * num + den) / (2 * den)
  }

  /** A multiple of `den` divided by `den` rounds to itself. */
  lemma RoundExact(m: int, den: int)
    requires den > 0
    ensures Round(m * den, den) == m
  {
    assert 2 * (m * den) + den == (2 * den) * m + den;
    DivIsUnique(2 * (m * den) + den, 2 * den, m);
  }

  /** Rounding keeps a quotient inside integer bounds that enclose it. */
  lemma RoundWithin(num: int, den: int, lo: int, hi: int)
    requires den > 0 && den * lo <= num <= den * hi
    ensures lo <= Round(num, den) <= hi
  {
    var r := Round(num, den);
    assert (2 * den) * lo < (2 * den) * (r + 1);
    MulCancelLt(2 * den, lo, r + 1);
    assert (2 * den) * r < (2 * den) * (hi + 1);
    MulCancelLt(2 * den, r, hi + 1);
  }

  lemma MulCancelLt(d: int, a: int, b: int)
    requires d > 0 && d * a < d * b
    ensures a < b
  {
  }

  lemma MulMono(d: int, a: int, b: int)
    requires d >= 0 && a <= b
    ensures d * a <= d * b
  {
  }

  lemma DivIsUnique(a: int, d: int, k: int)
    requires d > 0 && d * k <= a < d * k + d
    ensures a / d == k
  {
    var r := a / d;
    assert d * r <= a < d * r + d;
    MulCancelLt(d, k, r + 1);
    MulCancelLt(d, r, k + 1);
  }
}

=== FILE: js_text.dfy ===
/** The small part of ECMAScript string semantics the page script relies on:
    the white-space set skipped by `String.prototype.trim` and `parseInt`,
    line terminators (which the regular-expression `.` does not match), and
    `length`, which counts UTF-16 code units rather than characters. */
module JsText {

  /** LineTerminator: LF, CR, LINE SEPARATOR, PARAGRAPH SEPARATOR. */
  predicate IsLineTerminator(c: char) {
    c == '\n' || c == '\r' || c == '\U{2028}' || c == '\U{2029}'
  }

  /** The Unicode space separators (general category Zs). */
  predicate IsSpaceSeparator(c: char) {
    || c == ' ' || c == '\U{A0}' || c == '\U{1680}'
    || ('\U{2000}' <= c <= '\U{200A}')
    || c == '\U{202F}' || c == '\U{205F}' || c == '\U{3000}'
  }

  /** StrWhiteSpaceChar: WhiteSpace or LineTerminator. */
  predicate IsWhiteSpace(c: char) {
    || c == '\t' || c == '\U{B}' || c == '\U{C}' || c == '\U{FEFF}'
    || IsSpaceSeparator(c)
    || IsLineTerminator(c)
  }

  predicate NoLineTerminator(s: string) {
    forall i :: 0 <= i < |s| ==> !IsLineTerminator(s[i])
  }

  /** `s.length`: characters outside the Basic Multilingual Plane take two
      UTF-16 code units. */
  function Utf16Length(s: string): (n: nat)
    ensures |s| <= n <= 2 * |s|
    ensures (forall i :: 0 <= i < |s| ==> s[i] as int < 0x1_0000) ==> n == |s|
  {
    if |s| == 0 then 0
    else Utf16Length(s[..|s| - 1]) + (if s[|s| - 1] as int < 0x1_0000 then 1 else 2)
  }

  /** The number of white-space characters at the start of `s`. */
  function LeadingWhite(s: string): (k: nat)
    ensures k <= |s|
    ensures forall i :: 0 <= i < k ==> IsWhiteSpace(s[i])
    ensures k == |s| || !IsWhiteSpace(s[k])
  {
    if |s| > 0 && IsWhiteSpace(s[0]) then 1 + LeadingWhite(s[1..]) else 0
  }

  /** Removes leading white space (the start half of `trim`). */
  function TrimStart(s: string): string
  {
    s[LeadingWhite(s)..]
  }

  /** Removes trailing white space (the end half of `trim`). */
  function TrimEnd(s: string): (r: string)
    ensures |r| <= |s| && r == s[..|r|]
    ensures forall i :: |r| <= i < |s| ==> IsWhiteSpace(s[i])
    ensures r == [] || !IsWhiteSpace(r[|r| - 1])
  {
    if |s| > 0 && IsWhiteSpace(s[|s| - 1]) then TrimEnd(s[..|s| - 1]) else s
  }

  /** `String.prototype.trim`: the result is the slice of `s` that starts
      after its leading white space and stops before its trailing white
      space, and neither of its ends is white. */
  function Trim(s: string): (r: string)
    ensures var k := LeadingWhite(s);
            && k + |r| <= |s| && r == s[k..k + |r|]
            && (forall i :: k + |r| <= i < |s| ==> IsWhiteSpace(s[i]))
    ensures r == [] || (!IsWhiteSpace(r[0]) && !IsWhiteSpace(r[|r| - 1]))
  {
    TrimEnd(TrimStart(s))
  }

  /** Trimming twice is trimming once. */
  lemma TrimIdempotent(s: string)
    ensures Trim(Trim(s)) == Trim(s)
  {
    var r := Trim(s);
    if r != [] {
      assert TrimStart(r) == r;
      assert TrimEnd(r) == r;
    }
  }

  /** `trim` removes exactly the white space around a text whose first and
      last characters are not white. */
  lemma TrimSurrounded(pre: string, s: string, post: string)
    requires forall i :: 0 <= i < |pre| ==> IsWhiteSpace(pre[i])
    requires forall i :: 0 <= i < |post| ==> IsWhiteSpace(post[i])
    requires s != [] && !IsWhiteSpace(s[0]) && !IsWhiteSpace(s[|s| - 1])
    ensures Trim(pre + s + post) == s
  {
    var t := pre + s + post;
    var k := LeadingWhite(t);
    var r := Trim(t);
    assert t[|pre|] == s[0];
    assert k == |pre|;
    assert t[|pre| + |s| - 1] == s[|s| - 1];
    assert |r| == |s|;
    assert t[|pre|..|pre| + |s|] == s;
  }

  /** The leading white space of `ws + x` is `ws` when `x` starts with a
      character that is not white. */
  lemma LeadingWhiteOf(ws: string, x: string)
    requires forall i :: 0 <= i < |ws| ==> IsWhiteSpace(ws[i])
    requires x != [] && !IsWhiteSpace(x[0])
    ensures LeadingWhite(ws + x) == |ws|
    ensures TrimStart(ws + x) == x
  {
    var t := ws + x;
    assert t[|ws|] == x[0];
    assert t[|ws|..] == x;
  }
}

=== FILE: login.dfy ===
/** The mock login of the page: the `submit` handler's acceptance test, the
    session it stores, and whether `updateSessionUI` greets that session. */
module Login {
  import opened Wrappers
  import opened JsText

  /** The shortest password accepted, in UTF-16 code units. */
  const MinPassword := 6

  /** `String(fd.get(name) || '')`: a missing field reads as empty. */
  function FieldText(v: Option<string>): (s: string)
    ensures v.Some? ==> s == v.value
    ensures v.None? ==> s == ""
  {
    v.GetOr("")
  }

  /** The whole of `t` matches `.+@.+\..+`: a non-empty run, an `@`, a
      non-empty run, a `.`, a non-empty run, where `.` in the pattern is any
      character but a line terminator. */
  predicate FullMatch(t: string) {
    NoLineTerminator(t)
    && exists a, d :: 1 <= a && a + 2 <= d && d + 2 <= |t| && t[a] == '@' && t[d] == '.'
  }

  /** `RegExp.prototype.test` with a pattern that is neither anchored nor
      global: some slice of `e` matches the pattern entirely. */
  predicate RegexTest(e: string) {
    exists i, j :: 0 <= i <= j <= |e| && FullMatch(e[i..j])
  }

  /** The shortest matching slice around an `@` at `a` and a `.` at `d`:
      one character before the `@`, at least one between, one after the
      `.`, and no line terminator from the first to the last. */
  predicate Witness(e: string, a: int, d: int) {
    1 <= a && a + 2 <= d && d + 2 <= |e| && e[a] == '@' && e[d] == '.'
    && NoLineTerminator(e[a - 1..d + 2])
  }

  /** The pattern matches somewhere exactly when there is a shortest
      matching slice. */
  lemma RegexTestWitness(e: string)
    ensures RegexTest(e) <==> exists a, d :: Witness(e, a, d)
  {
    if RegexTest(e) {
      var i, j :| 0 <= i <= j <= |e| && FullMatch(e[i..j]);
      var t := e[i..j];
      var a, d :| 1 <= a && a + 2 <= d && d + 2 <= |t| && t[a] == '@' && t[d] == '.';
      var m := e[i + a - 1..i + d + 2];
      forall k | 0 <= k < |m| ensures !IsLineTerminator(m[k]) {
        assert m[k] == t[a - 1 + k];
      }
      assert e[i + a] == t[a] && e[i + d] == t[d];
      assert Witness(e, i + a, i + d);
    }
    if exists a, d :: Witness(e, a, d) {
      var a, d :| Witness(e, a, d);
      var t := e[a - 1..d + 2];
      assert t[1] == '@' && t[d - a + 1] == '.';
      assert FullMatch(t);
    }
  }

  /** The session record `{ email, at: Date.now() }`; the clock reading is
      a parameter. */
  datatype Session = Session(email: string, at: int)

  /** Which message the status line shows after a submit. */
  datatype Status = CheckFields | Welcome

  datatype Outcome = Outcome(stored: Option<Session>, status: Status)

  /** The `submit` handler. The trimmed email must match the pattern and
      the untrimmed password must have at least six UTF-16 code units;
      otherwise the stored session is left as it was and the status asks
      to check the fields. On success the trimmed email and the time are
      stored. */
  function Submit(stored: Option<Session>, emailField: Option<string>, passwordField: Option<string>, now: int): (o: Outcome)
    ensures var email := Trim(FieldText(emailField));
            (o.status == Welcome)
              == ((exists a, d :: Witness(email, a, d)) && Utf16Length(FieldText(passwordField)) >= MinPassword)
    ensures o.status == CheckFields ==> o.stored == stored
    ensures o.status == Welcome ==> o.stored == Some(Session(Trim(FieldText(emailField)), now))
  {
    var email := Trim(FieldText(emailField));
    var password := FieldText(passwordField);
    RegexTestWitness(email);
    if RegexTest(email) && Utf16Length(password) >= MinPassword then
      Outcome(Some(Session(email, now)), Welcome)
    else
      Outcome(stored, CheckFields)
  }

  /** `updateSessionUI`: the `Olá` greeting and the logout button show
      exactly when a session with a non-empty email is stored. Right after
      a welcomed submit the status line is overwritten with the welcome
      text, so the greeting is what a later page load shows. */
  predicate Greets(stored: Option<Session>) {
    stored.Some? && stored.value.email != ""
  }

  /** The logout button: the stored session is removed. */
  function Logout(stored: Option<Session>): (r: Option<Session>)
    ensures !Greets(r)
  {
    None
  }

  /** After a welcomed submit the stored session is one `updateSessionUI`
      greets on the next page load, and the logout button shows; the stored
      email holds an `@`, has no surrounding white space and is at least
      five characters long. */
  lemma AcceptedIsGreeted(stored: Option<Session>, emailField: Option<string>, passwordField: Option<string>, now: int)
    ensures var o := Submit(stored, emailField, passwordField, now);
            o.status == Welcome ==>
              Greets(o.stored) && '@' in o.stored.value.email && |o.stored.value.email| >= 5
              && !IsWhiteSpace(o.stored.value.email[0])
              && !IsWhiteSpace(o.stored.value.email[|o.stored.value.email| - 1])
  {
    var o := Submit(stored, emailField, passwordField, now);
    if o.status == Welcome {
      var e := o.stored.value.email;
      var a, d :| Witness(e, a, d);
      assert e[a] == '@';
    }
  }

  /** A rejected submit changes nothing a later page load could see. */
  lemma RejectedKeepsGreeting(stored: Option<Session>, emailField: Option<string>, passwordField: Option<string>, now: int)
    ensures var o := Submit(stored, emailField, passwordField, now);
            o.status == CheckFields ==> Greets(o.stored) == Greets(stored)
  {
  }

  /** "a@b.co" (surrounded by blanks) with "123456" is accepted, and the
      email is stored trimmed. */
  lemma AcceptsPlainAddress(stored: Option<Session>, now: int)
    ensures Submit(stored, Some(" a@b.co "), Some("123456"), now) == Outcome(Some(Session("a@b.co", now)), Welcome)
  {
    var email, password := Some(" a@b.co "), Some("123456");
    BlanksTrimmed(email);
    PlainAddressWitness("a@b.co");
    assert Utf16Length(FieldText(password)) == 6;
    AcceptedWithWitness(stored, email, password, now, 1, 3);
  }

  lemma BlanksTrimmed(email: Option<string>)
    requires email == Some(" a@b.co ")
    ensures Trim(FieldText(email)) == "a@b.co"
  {
    assert FieldText(email) == " " + "a@b.co" + " ";
    TrimSurrounded(" ", "a@b.co", " ");
  }

  lemma PlainAddressWitness(e: string)
    requires e == "a@b.co"
    ensures Witness(e, 1, 3)
  {
    assert e[0..5] == "a@b.c";
  }

  lemma AcceptedWithWitness(stored: Option<Session>, emailField: Option<string>, passwordField: Option<string>, now: int, a: int, d: int)
    requires Witness(Trim(FieldText(emailField)), a, d)
    requires Utf16Length(FieldText(passwordField)) >= MinPassword
    ensures Submit(stored, emailField, passwordField, now) == Outcome(Some(Session(Trim(FieldText(emailField)), now)), Welcome)
  {
  }

  /** Nothing after the `.`: refused. */
  lemma RefusesMissingSuffix(stored: Option<Session>, now: int)
    ensures Submit(stored, Some("a@b."), Some("123456"), now) == Outcome(stored, CheckFields)
  {
    TrimSurrounded("", "a@b.", "");
  }

  /** Nothing before the `@`: refused. */
  lemma RefusesMissingName(stored: Option<Session>, now: int)
    ensures Submit(stored, Some("@b.co"), Some("123456"), now) == Outcome(stored, CheckFields)
  {
    TrimSurrounded("", "@b.co", "");
    NoWitnessWithoutName("@b.co");
    RefusedWithoutWitness(stored, Some("@b.co"), Some("123456"), now);
  }

  lemma NoWitnessWithoutName(e: string)
    requires |e| == 5 && e[1] != '@' && e[2] != '@' && e[3] != '@' && e[4] != '@'
    ensures forall a, d :: !Witness(e, a, d)
  {
  }

  lemma RefusedWithoutWitness(stored: Option<Session>, emailField: Option<string>, passwordField: Option<string>, now: int)
    requires forall a, d :: !Witness(Trim(FieldText(emailField)), a, d)
    ensures Submit(stored, emailField, passwordField, now) == Outcome(stored, CheckFields)
  {
  }

  /** A five-character password: refused. */
  lemma RefusesShortPassword(stored: Option<Session>, now: int)
    ensures Submit(stored, Some("a@b.co"), Some("12345"), now) == Outcome(stored, CheckFields)
  {
    TrimSurrounded("", "a@b.co", "");
    assert Utf16Length("12345") == 5;
  }

  /** A form without an email field: refused. */
  lemma RefusesMissingEmail(stored: Option<Session>, now: int)
    ensures Submit(stored, None, Some("123456"), now) == Outcome(stored, CheckFields)
  {
    assert Trim("") == "";
  }
}

=== FILE: palette.dfy ===
/** The averaging and accent part of `extractPaletteFromImage`. The 64x64
    RGBA read-back of the logo is taken as a given byte sequence. */
module Palette {
  import opened Wrappers
  import opened JsMath
  import opened Color

  /** Pixels whose alpha is below this are ignored as transparent. */
  const MinAlpha := 16
  /** Accent targets: violet when the mean is redder than it is blue. */
  const Violet := "#b68cff"
  const Blue := "#6f7cff"
  /** The accent ratio 0.35, as a percentage. */
  const AccentPercent := 35

  /** The running totals of the scan: channel sums and the number of
      pixels counted. */
  datatype Sums = Sums(r: int, g: int, b: int, n: nat)

  /** The palette `extractPaletteFromImage` returns. */
  datatype Palette = Palette(primary: string, accent: string)

  /** Pixel `k` takes part in the average. */
  predicate Counted(data: seq<Byte>, k: int)
    requires 0 <= k < |data| / 4
  {
    data[4 * k + 3] >= MinAlpha
  }

  /** Channel `c` (0 red, 1 green, 2 blue) of pixel `k`. */
  function PixelChannel(data: seq<Byte>, k: int, c: int): Byte
    requires 0 <= k < |data| / 4 && 0 <= c < 3
  {
    data[4 * k + c]
  }

  function SumChannel(s: Sums, c: int): int
    requires 0 <= c < 3
  {
    if c == 0 then s.r else if c == 1 then s.g else s.b
  }

  function RgbChannel(x: Rgb, c: int): int
    requires 0 <= c < 3
  {
    if c == 0 then x.r else if c == 1 then x.g else x.b
  }

  predicate NoneCounted(data: seq<Byte>)
    requires |data| % 4 == 0
  {
    forall k :: 0 <= k < |data| / 4 ==> !Counted(data, k)
  }

  function Add(s: Sums, t: Sums): Sums {
    Sums(s.r + t.r, s.g + t.g, s.b + t.b, s.n + t.n)
  }

  /** The totals over all counted pixels: no more pixels than there are,
      none at all exactly when every pixel is transparent, and every sum
      at most 255 per counted pixel. */
  function SumPixels(data: seq<Byte>): (s: Sums)
    requires |data| % 4 == 0
    ensures s.n <= |data| / 4
    ensures s.n == 0 <==> NoneCounted(data)
    ensures 0 <= s.r <= 255 * s.n && 0 <= s.g <= 255 * s.n && 0 <= s.b <= 255 * s.n
    decreases |data|
  {
    if |data| == 0 then Sums(0, 0, 0, 0)
    else
      var front := data[..|data| - 4];
      var s := SumPixels(front);
      var last := |data| / 4 - 1;
      assert forall k :: 0 <= k < last ==> (Counted(front, k) <==> Counted(data, k));
      if data[|data| - 1] < MinAlpha then s
      else
        assert Counted(data, last);
        Sums(s.r + data[|data| - 4], s.g + data[|data| - 3], s.b + data[|data| - 2], s.n + 1)
  }

  /** The scan loop of `extractPaletteFromImage`: step through the bytes
      four at a time and add up the colour of every pixel whose alpha is at
      least 16. */
  method ScanPixels(data: seq<Byte>) returns (s: Sums)
    requires |data| % 4 == 0
    ensures s == SumPixels(data)
  {
    s := Sums(0, 0, 0, 0);
    var i := 0;
    ghost var k, m := 0, |data| / 4;
    while i < |data|
      invariant 0 <= k <= m && i == 4 * k && |data| == 4 * m
      invariant s == SumPixels(data[..i])
    {
      ScanStep(data, i);
      var a := data[i + 3];
      if a >= MinAlpha {
        s := Sums(s.r + data[i], s.g + data[i + 1], s.b + data[i + 2], s.n + 1);
      }
      i, k := i + 4, k + 1;
    }
    assert data[..i] == data;
  }

  /** The totals after looking at the pixel that starts at byte `i`. */
  function WithPixel(s: Sums, data: seq<Byte>, i: int): Sums
    requires 0 <= i && i + 4 <= |data|
  {
    if data[i + 3] >= MinAlpha then Sums(s.r + data[i], s.g + data[i + 1], s.b + data[i + 2], s.n + 1) else s
  }

  /** Summing one pixel more adds that pixel. */
  lemma ScanStep(data: seq<Byte>, i: int)
    requires 0 <= i && i + 4 <= |data| && i % 4 == 0
    ensures SumPixels(data[..i + 4]) == WithPixel(SumPixels(data[..i]), data, i)
  {
    var x := data[..i + 4];
    assert x[..|x| - 4] == data[..i];
    assert x[|x| - 4] == data[i] && x[|x| - 3] == data[i + 1] && x[|x| - 2] == data[i + 2] && x[|x| - 1] == data[i + 3];
  }

  /** The rounded per-channel mean, `Math.round(sum / n)`. */
  function MeanColor(s: Sums): (c: Rgb)
    requires s.n > 0
    requires 0 <= s.r <= 255 * s.n && 0 <= s.g <= 255 * s.n && 0 <= s.b <= 255 * s.n
    ensures InGamut(c)
  {
    RoundWithin(s.r, s.n, 0, 255);
    RoundWithin(s.g, s.n, 0, 255);
    RoundWithin(s.b, s.n, 0, 255);
    Rgb(Round(s.r, s.n), Round(s.g, s.n), Round(s.b, s.n))
  }

  /** The colour the accent is mixed towards. */
  function AccentTarget(c: Rgb): string {
    if c.r > c.b then Violet else Blue
  }

  /** `extractPaletteFromImage` after the read-back. There is no palette
      exactly when no pixel is opaque enough; otherwise both colours are
      canonical, and the accent is the primary mixed 35% towards violet
      when the primary's red exceeds its blue, towards blue otherwise. */
  function ExtractPalette(data: seq<Byte>): (p: Option<Palette>)
    requires |data| % 4 == 0
    ensures p.None? <==> NoneCounted(data)
    ensures p.Some? ==> IsCanonicalHex(p.value.primary) && IsCanonicalHex(p.value.accent)
    ensures p.Some? ==> HexToRgb(p.value.primary) == MeanColor(SumPixels(data))
    ensures p.Some? ==>
      var c := HexToRgb(p.value.primary);
      p.value.accent == MixHexWith(p.value.primary, if c.r > c.b then Violet else Blue, AccentPercent, 100)
  {
    var s := SumPixels(data);
    if s.n == 0 then None else Some(PaletteOf(MeanColor(s)))
  }

  /** The palette built from the mean colour `c`: its canonical spelling as
      primary, and the accent mixed towards the target `c` selects. */
  function PaletteOf(c: Rgb): (p: Palette)
    requires InGamut(c)
    ensures IsCanonicalHex(p.primary) && HexToRgb(p.primary) == c
    ensures IsCanonicalHex(p.accent) && p.accent == MixHexWith(p.primary, AccentTarget(c), AccentPercent, 100)
  {
    var base := RgbToHex(c.r, c.g, c.b);
    HexRoundTrip(c);
    Palette(base, MixHexWith(base, AccentTarget(c), AccentPercent, 100))
  }

  /** Summing a buffer in two pieces adds the two totals. */
  lemma {:induction false} SumPixelsAppend(x: seq<Byte>, y: seq<Byte>)
    requires |x| % 4 == 0 && |y| % 4 == 0
    ensures SumPixels(x + y) == Add(SumPixels(x), SumPixels(y))
    decreases |y|
  {
    if |y| == 0 {
      assert x + y == x;
    } else {
      var y' := y[..|y| - 4];
      assert (x + y)[..|x + y| - 4] == x + y';
      assert (x + y)[|x + y| - 4..] == y[|y| - 4..];
      SumPixelsAppend(x, y');
    }
  }

  /** A pixel with alpha below 16 adds nothing. */
  lemma TransparentSum(px: seq<Byte>)
    requires |px| == 4 && px[3] < MinAlpha
    ensures SumPixels(px) == Sums(0, 0, 0, 0)
  {
    assert px[..0] == [];
  }

  /** Inserting a transparent pixel anywhere in the buffer leaves the
      palette as it was. */
  lemma TransparentPixelIgnored(before: seq<Byte>, px: seq<Byte>, after: seq<Byte>)
    requires |before| % 4 == 0 && |px| == 4 && |after| % 4 == 0
    requires px[3] < MinAlpha
    ensures ExtractPalette(before + px + after) == ExtractPalette(before + after)
  {
    TransparentAppended(before, px);
    SameFrontSameSums(before + px, before, after);
    SameSumsSamePalette(before + px + after, before + after);
  }

  lemma TransparentAppended(before: seq<Byte>, px: seq<Byte>)
    requires |before| % 4 == 0 && |px| == 4 && px[3] < MinAlpha
    ensures |before + px| % 4 == 0 && SumPixels(before + px) == SumPixels(before)
  {
    SumPixelsAppend(before, px);
    TransparentSum(px);
  }

  lemma SameFrontSameSums(p: seq<Byte>, q: seq<Byte>, after: seq<Byte>)
    requires |p| % 4 == 0 && |q| % 4 == 0 && |after| % 4 == 0
    requires SumPixels(p) == SumPixels(q)
    ensures |p + after| % 4 == 0 && |q + after| % 4 == 0
    ensures SumPixels(p + after) == SumPixels(q + after)
  {
    WholePixels(p, after);
    WholePixels(q, after);
    SumPixelsAppend(p, after);
    SumPixelsAppend(q, after);
  }

  /** Two buffers of whole pixels make a buffer of whole pixels. */
  lemma WholePixels(x: seq<Byte>, y: seq<Byte>)
    requires |x| % 4 == 0 && |y| % 4 == 0
    ensures |x + y| % 4 == 0
  {
    var i, j := |x| / 4, |y| / 4;
    assert |x + y| == 4 * (i + j);
  }

  lemma SameSumsSamePalette(x: seq<Byte>, y: seq<Byte>)
    requires |x| % 4 == 0 && |y| % 4 == 0 && SumPixels(x) == SumPixels(y)
    ensures ExtractPalette(x) == ExtractPalette(y)
  {
  }

  /** If every counted pixel has channel `c` in `[lo, hi]`, the channel sum
      lies between `lo` and `hi` times the number counted. */
  lemma {:induction false} ChannelSumWithin(data: seq<Byte>, c: int, lo: int, hi: int)
    requires |data| % 4 == 0 && 0 <= c < 3
    requires forall k :: 0 <= k < |data| / 4 && Counted(data, k) ==> lo <= PixelChannel(data, k, c) <= hi
    ensures var s := SumPixels(data); s.n * lo <= SumChannel(s, c) <= s.n * hi
    decreases |data|
  {
    if |data| > 0 {
      var front := data[..|data| - 4];
      FrontPixels(data);
      ChannelSumWithin(front, c, lo, hi);
      LastPixel(data);
      var s0 := SumPixels(front);
      var m := |data| / 4;
      assert 4 * (m - 1) == |data| - 4;
      if Counted(data, m - 1) {
        BoundStep(s0.n, SumChannel(s0, c), PixelChannel(data, m - 1, c), lo, hi);
      }
    }
  }

  /** Dropping the last pixel keeps every other pixel as it was. */
  lemma FrontPixels(data: seq<Byte>)
    requires |data| % 4 == 0 && |data| >= 4
    ensures var front := data[..|data| - 4];
            && |front| % 4 == 0 && |front| / 4 == |data| / 4 - 1
            && (forall k | 0 <= k < |front| / 4 :: Counted(front, k) == Counted(data, k))
            && (forall k, c | 0 <= k < |front| / 4 && 0 <= c < 3 :: PixelChannel(front, k, c) == PixelChannel(data, k, c))
  {
  }

  /** The totals of a buffer are those of all but its last pixel, plus
      that pixel. */
  lemma LastPixel(data: seq<Byte>)
    requires |data| % 4 == 0 && |data| >= 4
    ensures SumPixels(data) == WithPixel(SumPixels(data[..|data| - 4]), data, |data| - 4)
  {
    ScanStep(data, |data| - 4);
    assert data[..|data|] == data;
  }

  lemma BoundStep(n: int, sum: int, v: int, lo: int, hi: int)
    requires n * lo <= sum <= n * hi && lo <= v <= hi
    ensures (n + 1) * lo <= sum + v <= (n + 1) * hi
  {
    OneMore(n, lo);
    OneMore(n, hi);
  }

  lemma OneMore(n: int, x: int)
    ensures (n + 1) * x == n * x + x
  {
  }

  /** Each primary channel lies within any bounds that enclose that channel
      of every counted pixel: between their minimum and maximum. */
  lemma PrimaryWithin(data: seq<Byte>, c: int, lo: int, hi: int)
    requires |data| % 4 == 0 && 0 <= c < 3
    requires forall k :: 0 <= k < |data| / 4 && Counted(data, k) ==> lo <= PixelChannel(data, k, c) <= hi
    ensures ExtractPalette(data).Some? ==> lo <= RgbChannel(HexToRgb(ExtractPalette(data).value.primary), c) <= hi
  {
    var s := SumPixels(data);
    if s.n > 0 {
      ChannelSumWithin(data, c, lo, hi);
      RoundWithin(SumChannel(s, c), s.n, lo, hi);
    }
  }

  /** `count` copies of one RGBA pixel. */
  function Solid(px: seq<Byte>, count: nat): (data: seq<Byte>)
    requires |px| == 4
    ensures |data| == 4 * count && |data| % 4 == 0
    ensures forall k, c :: 0 <= k < count && 0 <= c < 3 ==> PixelChannel(data, k, c) == px[c]
    ensures forall k :: 0 <= k < count ==> (Counted(data, k) <==> px[3] >= MinAlpha)
  {
    if count == 0 then []
    else
      var front := Solid(px, count - 1);
      var data := front + px;
      assert forall k, c :: 0 <= k < count - 1 && 0 <= c < 3 ==> PixelChannel(data, k, c) == PixelChannel(front, k, c);
      assert forall k :: 0 <= k < count - 1 ==> Counted(data, k) == Counted(front, k);
      data
  }

  /** A buffer of one opaque colour has that colour as its primary, and the
      accent follows the red-versus-blue rule applied to it. */
  lemma SolidColour(px: seq<Byte>, count: nat)
    requires |px| == 4 && px[3] >= MinAlpha && count >= 1
    ensures var primary := RgbToHex(px[0], px[1], px[2]);
            ExtractPalette(Solid(px, count))
              == Some(Palette(primary, MixHexWith(primary, if px[0] > px[2] then Violet else Blue, AccentPercent, 100)))
  {
    SolidReadsBack(px, count);
    var p := ExtractPalette(Solid(px, count)).value;
    var c := HexToRgb(p.primary);
    assert c == Rgb(px[0], px[1], px[2]);
    CanonicalRoundTrip(p.primary);
    assert p.primary == RgbToHex(px[0], px[1], px[2]);
    assert p.accent == MixHexWith(p.primary, if px[0] > px[2] then Violet else Blue, AccentPercent, 100);
  }

  lemma SolidReadsBack(px: seq<Byte>, count: nat)
    requires |px| == 4 && px[3] >= MinAlpha && count >= 1
    ensures ExtractPalette(Solid(px, count)).Some?
    ensures HexToRgb(ExtractPalette(Solid(px, count)).value.primary) == Rgb(px[0], px[1], px[2])
  {
    assert Counted(Solid(px, count), 0);
    SolidChannel(px, count, 0);
    SolidChannel(px, count, 1);
    SolidChannel(px, count, 2);
  }

  lemma SolidChannel(px: seq<Byte>, count: nat, c: int)
    requires |px| == 4 && 0 <= c < 3
    ensures var p := ExtractPalette(Solid(px, count));
            p.Some? ==> RgbChannel(HexToRgb(p.value.primary), c) == px[c]
  {
    PrimaryWithin(Solid(px, count), c, px[c], px[c]);
  }
}

=== FILE: starfield.dfy ===
/** How many stars `createStars` draws for a viewport. Positions, sizes and
    twinkle phases are random and are not part of this model. */
module Starfield {
  import opened JsMath

  /** At most this many stars, whatever the viewport. */
  const MaxStars := 800
  /** Stars per pixel, in stars per 10000 pixels: 0.0018 on a viewport at
      least 900px wide, 0.0012 otherwise. */
  const WideDensity := 18
  const NarrowDensity := 12
  const PerPixels := 10000

  function Density(wide: bool): nat {
    if wide then WideDensity else NarrowDensity
  }

  /** `Math.min(800, Math.floor(innerWidth * innerHeight * density))`. The
      count is the largest whole number of stars the density allows for the
      viewport's area, capped at 800. */
  function StarCount(w: nat, h: nat, wide: bool): (n: nat)
    ensures n <= MaxStars
    ensures n * PerPixels <= w * h * Density(wide)
    ensures n < MaxStars ==> w * h * Density(wide) < (n + 1) * PerPixels
    ensures n == MaxStars <==> w * h * Density(wide) >= MaxStars * PerPixels
  {
    var wanted := Floor(w * h * Density(wide), PerPixels);
    if wanted < MaxStars then wanted else MaxStars
  }

  /** A larger viewport never has fewer stars. */
  lemma StarCountMonotone(w: nat, h: nat, w': nat, h': nat, wide: bool)
    requires w <= w' && h <= h'
    ensures StarCount(w, h, wide) <= StarCount(w', h', wide)
  {
    var d := Density(wide);
    AreaMonotone(w, h, w', h');
    MulMono(d, w * h, w' * h');
    assert w * h * d <= w' * h' * d;
    FloorMonotone(w * h * d, w' * h' * d, PerPixels);
  }

  /** A wide viewport never has fewer stars than a narrow one of the same
      size. */
  lemma WideHasMore(w: nat, h: nat)
    ensures StarCount(w, h, false) <= StarCount(w, h, true)
  {
    var a := w * h;
    assert a * NarrowDensity <= a * WideDensity;
    FloorMonotone(a * NarrowDensity, a * WideDensity, PerPixels);
  }

  /** An empty viewport has no stars. */
  lemma EmptyViewport(w: nat, wide: bool)
    ensures StarCount(w, 0, wide) == 0 && StarCount(0, w, wide) == 0
  {
  }

  lemma AreaMonotone(w: nat, h: nat, w': nat, h': nat)
    requires w <= w' && h <= h'
    ensures w * h <= w' * h'
  {
    MulMono(h, w, w');
    MulMono(w', h, h');
  }

  lemma FloorMonotone(x: int, y: int, d: int)
    requires d > 0 && x <= y
    ensures Floor(x, d) <= Floor(y, d)
  {
    var a, b := Floor(x, d), Floor(y, d);
    assert d * a < d * (b + 1);
    MulCancelLt(d, a, b + 1);
  }

  /** What the script keeps about the starfield: the viewport the canvas
      was sized to, how many stars exist, and whether the animation loop
      runs. */
  datatype Field = Field(width: nat, height: nat, stars: nat, animating: bool)

  /** Stars and canvas size agree with the viewport. */
  predicate Fits(f: Field, wide: bool) {
    f.stars == StarCount(f.width, f.height, wide)
  }

  /** `setupStarfield`: with reduced motion requested nothing happens;
      otherwise the canvas takes the viewport size, the stars are created
      for it and the loop starts. */
  function Setup(f: Field, reducedMotion: bool, w: nat, h: nat, wide: bool): (g: Field)
    ensures reducedMotion ==> g == f
    ensures !reducedMotion ==> g.animating && Fits(g, wide) && g.width == w && g.height == h
  {
    if reducedMotion then f else Field(w, h, StarCount(w, h, wide), true)
  }

  /** The `resize` listener: the canvas and the stars follow the viewport,
      and the loop is neither started nor stopped. */
  function Resize(f: Field, w: nat, h: nat, wide: bool): (g: Field)
    ensures Fits(g, wide) && g.width == w && g.height == h && g.animating == f.animating
  {
    f.(width := w, height := h, stars := StarCount(w, h, wide))
  }

  /** The listener is installed whatever the motion preference, so after a
      resize stars exist even when reduced motion kept the loop from
      starting; they are never drawn. */
  lemma ReducedMotionNeverAnimates(f: Field, w: nat, h: nat, wide: bool, w': nat, h': nat)
    requires !f.animating
    ensures var g := Resize(Setup(f, true, w, h, wide), w', h', wide);
            !g.animating && g.stars == StarCount(w', h', wide)
  {
  }

  /** Resizing to the same viewport twice is the same as once. */
  lemma ResizeIdempotent(f: Field, w: nat, h: nat, wide: bool)
    ensures Resize(Resize(f, w, h, wide), w, h, wide) == Resize(f, w, h, wide)
  {
  }
}

=== FILE: theme.dfy ===
/** `setThemeFromColors` and the logo `load` handlers that feed it: the
    three CSS custom properties `--primary`, `--accent` and `--bg-elev`. */
module Theme {
  import opened Wrappers
  import opened JsMath
  import opened HexNumber
  import opened Color
  import opened Palette

  /** The elevated-background ratio 0.7, as a percentage, and the colour
      it mixes towards. */
  const ElevPercent := 70
  const Black := "#000000"

  /** The values of the three custom properties the script sets. */
  datatype CssVars = CssVars(primary: string, accent: string, bgElev: string)

  /** A channel scaled by 0.3 and rounded half up, written without the mix:
      `floor((3 * v + 5) / 10)`. */
  function Darken(v: int): int {
    (3 * v + 5) / 10
  }

  /** `setThemeFromColors`: the primary and accent are stored as given, and
      the elevated background is the primary mixed 70% towards black, which
      is each channel of the primary scaled by 0.3, printed canonically. */
  function SetThemeFromColors(primaryHex: string, accentHex: string): (t: CssVars)
    ensures t.primary == primaryHex && t.accent == accentHex
    ensures IsCanonicalHex(t.bgElev)
    ensures var c := HexToRgb(primaryHex);
            HexToRgb(t.bgElev) == Rgb(Darken(c.r), Darken(c.g), Darken(c.b))
  {
    var elev := MixHexWith(primaryHex, Black, ElevPercent, 100);
    ElevIsDarkened(primaryHex);
    CssVars(primaryHex, accentHex, elev)
  }

  lemma ElevIsDarkened(primaryHex: string)
    ensures var c := HexToRgb(primaryHex);
            HexToRgb(MixHexWith(primaryHex, Black, ElevPercent, 100)) == Rgb(Darken(c.r), Darken(c.g), Darken(c.b))
  {
    BlackReadsZero();
    var c := HexToRgb(primaryHex);
    DarkenIsMix(c.r);
    DarkenIsMix(c.g);
    DarkenIsMix(c.b);
  }

  lemma BlackReadsZero()
    ensures HexToRgb(Black) == Rgb(0, 0, 0)
  {
    var z := "00";
    ZeroPair(z);
    assert Black == "#" + (z + z + z);
    HexToRgbPairs(z, z, z);
  }

  lemma ZeroPair(z: string)
    requires z == "00"
    ensures AllHexDigits(z) && HexValue(z) == 0
  {
    assert z[..1] == "0" && z[..1][..0] == "";
    assert HexValue(z[..1]) == 0;
  }

  /** Mixing a channel 70% towards zero is scaling it by 0.3. */
  lemma DarkenIsMix(x: int)
    ensures MixChannel(x, 0, ElevPercent, 100) == Darken(x)
  {
    var r := MixChannel(x, 0, ElevPercent, 100);
    assert 200 * r <= 60 * x + 100 < 200 * r + 200;
    DivIsUnique(3 * x + 5, 10, r);
  }

  /** The elevated background is never lighter than the primary, and each
      channel is strictly darker unless it is already zero. */
  lemma ElevDarker(primaryHex: string, accentHex: string)
    ensures var c := HexToRgb(primaryHex);
            var e := HexToRgb(SetThemeFromColors(primaryHex, accentHex).bgElev);
            e.r <= c.r && e.g <= c.g && e.b <= c.b
            && (e.r == c.r <==> c.r == 0) && (e.g == c.g <==> c.g == 0) && (e.b == c.b <==> c.b == 0)
  {
    var c := HexToRgb(primaryHex);
    var e := HexToRgb(SetThemeFromColors(primaryHex, accentHex).bgElev);
    assert e == Rgb(Darken(c.r), Darken(c.g), Darken(c.b));
    DarkenBelow(c.r);
    DarkenBelow(c.g);
    DarkenBelow(c.b);
  }

  lemma DarkenBelow(v: int)
    requires 0 <= v
    ensures Darken(v) <= v && (Darken(v) == v <==> v == 0)
  {
  }

  /** The logo `load` handler: with no opaque pixel the theme stays as it
      was; otherwise all three properties are set from the palette. */
  function OnLogoLoaded(current: CssVars, data: seq<Byte>): (t: CssVars)
    requires |data| % 4 == 0
    ensures NoneCounted(data) ==> t == current
    ensures !NoneCounted(data) ==>
      var p := ExtractPalette(data).value;
      t == SetThemeFromColors(p.primary, p.accent)
      && HexToRgb(t.primary) == MeanColor(SumPixels(data))
      && IsCanonicalHex(t.accent)
  {
    match ExtractPalette(data)
    case None => current
    case Some(p) => SetThemeFromColors(p.primary, p.accent)
  }

  /** Loading the same logo again changes nothing. */
  lemma ReloadKeepsTheme(current: CssVars, data: seq<Byte>)
    requires |data| % 4 == 0
    ensures OnLogoLoaded(OnLogoLoaded(current, data), data) == OnLogoLoaded(current, data)
  {
  }
}

=== FILE: wrappers.dfy ===
/** The one failure-compatible datatype the model needs: JavaScript's `null`
    and `NaN` results become `None`. */
module Wrappers {

  datatype Option<+T> = None | Some(value: T) {

    /** Returns the value held in Some, or `default` for None. */
    function GetOr(default: T): (r: T)
      ensures Some? ==> r == value
      ensures None? ==> r == default
    {
      match this
      case Some(v) => v
      case None => default
    }
  }
}
